=== FILE: README.md ===
# Green-bean moisture dashboard: verified model of its data updates

The dashboard shows live readings of a green-coffee-bean store. Each reading
`{ts, T, RH, CO2, MC}` holds a timestamp, temperature, relative humidity, CO₂
and moisture content. Readings come from a publish/subscribe stream. The
`kopi/greenbeans/data` topic carries telemetry, and
`kopi/greenbeans/prediction` carries moisture predictions. The source also
defines a hook for a simulated stream (`useMockStream`, line 141). The
dashboard never calls that hook: it calls only the live stream (line 246).

This project models the state transitions behind the charts and the alarm
list as pure functions over immutable values:

- **`Readings`**: the reading record, and the `{ ...r, MC: mc }` update that replaces only the moisture.
- **`Window`**: the rolling window of recent readings.
  - The append as written, `[...prev.slice(-600), point]`.
  - The intended 600-entry append.
  - The in-place correction of the last entry.
  - Lemmas showing that any run of appends keeps exactly the most recent readings, in arrival order.
- **`LiveStream`**: the stream's message handler. Its state is the window, the current reading and the last-known-moisture cache.
  - The telemetry branch, with its moisture fallback chain.
  - The prediction branch.
  - Dispatch on the topic, where a message that fails to parse leaves the state unchanged.
  - Invariants kept over any run of messages.
- **`Alarms`**: the alarm effect and the live `mcWarn` status.
  - The range check is inclusive.
  - An out-of-range reading prepends a LOW/HIGH record, and the log keeps at most 50 records, newest first.
  - A lemma covers any run of checks.
- **`MockStream`**: the moisture clamp `Math.max(8, Math.min(14, x))` of the unused simulated-stream hook.
- **`JsNumber`, `JsArray`, `Wrappers`**: the JavaScript semantics the code relies on.
  - Numbers are modelled with NaN and the infinities. Every comparison with NaN is false, and `Math.min`/`Math.max` propagate NaN.
  - `Array.prototype.slice` is modelled with negative indices.
  - `T | null` is modelled as `Option`.

Inputs the code takes from its environment become parameters:

- The clock (`now`).
- The cache loaded from browser storage (`Initial(stored)`).
- The current reading as the message handler sees it (`seen`). The handler is registered once at mount, so this is the initial `null` in the running application. `Run` passes `None`, and `LiveStream.FallbackAtMount` states what this means for the fallback.

In four places the code does something other than what its own text
suggests. The model follows what the code does:

- The window keeps 601 entries. The constant 600 in `prev.slice(-600)` (line 123) reads as the window's size, but the new point is appended after the slice.
- A non-finite prediction is not ignored. The `Number.isFinite` guard on line 92 covers only the cache update (lines 93-94). The updates of the current reading and of the window's last entry (lines 96-106) sit outside it and write NaN.
- So the cache changes only on finite predictions, while the current reading changes on every prediction.
- The `latest?.MC ?? 0` fallback on line 113 never uses a current reading's moisture. The handler is registered once, by the effect with an empty dependency list (lines 74 and 135), so the `latest` it closes over is always the initial `null`.

The first two of these are logged under "Findings". The corrected handler `StepCorrected` fixes both, and its invariants are proved.

## Model

| member | source | states |
|---|---|---|
| Readings.WithMC | src/DashboardGreenBeans.tsx:98 | the spread update changes the moisture and keeps ts, T, RH and CO2 |
| Window.AppendAsWritten | src/DashboardGreenBeans.tsx:123 | the appended window is exactly the 601 most recent readings of old window plus new point, in order, with the new point last (the unused simulated-stream hook uses the same expression at line 190) |
| Window.AppendAsWrittenExceedsCapacity | src/DashboardGreenBeans.tsx:123 | a window already holding 600 readings grows to 601 |
| Window.AppendAllAsWrittenKeepsMostRecent | src/DashboardGreenBeans.tsx:123 | after any non-empty run of telemetry the window is the 601 most recent readings of the whole history, in arrival order |
| Window.Push | src/DashboardGreenBeans.tsx:123 | corrected append: the 600 most recent readings, new point last |
| Window.PushAllKeepsMostRecent | src/DashboardGreenBeans.tsx:123 | any non-empty run of corrected appends, or an empty run on a window of at most 600, leaves at most 600 entries, namely the most recent ones in arrival order |
| Window.AmendLast | src/DashboardGreenBeans.tsx:102-106 | an empty window is unchanged; otherwise the length and all entries but the last are unchanged, and the last keeps ts/T/RH/CO2 with MC replaced |
| Window.AmendLastIdempotent | src/DashboardGreenBeans.tsx:102-106 | amending the last entry twice with the same value equals amending it once |
| LiveStream.Initial | src/DashboardGreenBeans.tsx:66-72 | mount state: empty window, no current reading, cache equal to the stored value, or non-finite when nothing is stored |
| LiveStream.FallbackMC | src/DashboardGreenBeans.tsx:111-113 | the new reading's moisture: the cached value when finite; else the seen current reading's moisture; else 0 |
| LiveStream.FallbackAtMount | src/DashboardGreenBeans.tsx:111-113 | with the mount-time null current reading, the fallback is always finite: the finite cache or 0 |
| LiveStream.NewPoint | src/DashboardGreenBeans.tsx:115-121 | the telemetry reading carries the clock, the payload's T/RH/CO2 and the fallback moisture |
| LiveStream.OnTelemetry | src/DashboardGreenBeans.tsx:110-125 | the new reading becomes current and is the window's last entry; the window is the 601 most recent readings; the cache is unchanged |
| LiveStream.MergeLatest | src/DashboardGreenBeans.tsx:96-100 | an existing current reading changes only its moisture; without one, a reading `{ts: now, T: 0, RH: 0, CO2: 0, MC: mc}` is made |
| LiveStream.OnPrediction | src/DashboardGreenBeans.tsx:90-107 | the cache takes the prediction only if finite; the current reading exists and has the prediction as moisture with all else kept; the window keeps its length and every entry but the last, whose moisture is replaced |
| LiveStream.OnPredictionStorageFails | src/DashboardGreenBeans.tsx:91-95 | when the storage write on line 94 throws, a finite prediction has already replaced the cache, and the `catch` on line 127 leaves the current reading and the window unchanged; a non-finite prediction never reaches the write and acts as the branch does |
| LiveStream.OnPredictionIdempotent | src/DashboardGreenBeans.tsx:96-106 | the same prediction twice leaves the same handler state as one, and adds no window entry, whatever the clock reads the second time |
| LiveStream.MergeExample | src/DashboardGreenBeans.tsx:96-106 | current reading `{ts:100, T:26, RH:65, CO2:560, MC:0}` with a prediction of 11.3 becomes the same reading with MC 11.3, in both the current slot and the window's last entry |
| LiveStream.Step | src/DashboardGreenBeans.tsx:85-130 | a message that fails to parse, or on another topic, leaves the state unchanged; only telemetry changes the window's length; only predictions change the cache |
| LiveStream.StepPreservesConsistent | src/DashboardGreenBeans.tsx:96-124 | each message keeps the window within 601 entries and the current reading equal to the window's last entry when there is one |
| LiveStream.RunPreservesConsistent | src/DashboardGreenBeans.tsx:85-130 | the same over any run of messages handled as registered at mount |
| LiveStream.PointsOf | src/DashboardGreenBeans.tsx:115-121 | a run of telemetry deliveries yields one reading per delivery, in arrival order, each built from that delivery's payload and clock |
| LiveStream.RunTelemetryIsAppendAll | src/DashboardGreenBeans.tsx:110-125 | handling a run of parsed telemetry messages performs the window appends of the readings they produce, one per message, makes the last of them current, and leaves the cache unchanged |
| LiveStream.RunTelemetryKeepsMostRecent | src/DashboardGreenBeans.tsx:123 | after any non-empty run of telemetry messages the window is exactly the 601 most recent of the old entries and the new readings, in arrival order, and the last new reading is current |
| LiveStream.FreshSessionTelemetryHasZeroMC | src/DashboardGreenBeans.tsx:110-124 | with nothing stored, telemetry before any prediction gives a current reading with moisture 0 |
| LiveStream.NonFinitePredictionSilencesAlarm | src/DashboardGreenBeans.tsx:91-106 | a prediction that is missing or a non-numeric string leaves the cache alone but sets the current moisture to NaN, which turns the alarm status off for any thresholds |
| LiveStream.ZeroPredictionIsCachedAndAlarms | src/DashboardGreenBeans.tsx:91-113 | a prediction that coerces to 0 (such as `null`) is finite: it replaces the cache, becomes the fallback moisture of later telemetry, and raises LOW under the default thresholds |
| LiveStream.RepeatedPredictionAlarmsTwice | src/DashboardGreenBeans.tsx:96-100 | a repeated out-of-range prediction leaves the same handler state, yet two firings of the alarm effect on the two current readings log two records |
| LiveStream.OnPredictionCorrected | src/DashboardGreenBeans.tsx:91-95 | corrected prediction branch: a non-finite prediction leaves the whole state unchanged |
| LiveStream.OnTelemetryCorrected | src/DashboardGreenBeans.tsx:110-125 | corrected telemetry branch: the new reading is current and last, and the window is the 600 most recent readings |
| LiveStream.StepCorrected | src/DashboardGreenBeans.tsx:85-130 | corrected dispatch: unparsable messages and other topics leave the state unchanged |
| LiveStream.StepCorrectedPreservesInvariant | src/DashboardGreenBeans.tsx:85-130 | the corrected handler keeps the window within 600 entries, with the current reading as its last entry and every moisture value finite |
| LiveStream.RunCorrectedPreservesInvariant | src/DashboardGreenBeans.tsx:85-130 | the same over any run of messages |
| LiveStream.RunCorrectedTelemetryIsPushAll | src/DashboardGreenBeans.tsx:110-125 | the corrected handler turns a run of telemetry messages into corrected appends of their readings and leaves the cache unchanged |
| LiveStream.RunCorrectedTelemetryKeepsMostRecent | src/DashboardGreenBeans.tsx:123 | under the corrected handler, any run of telemetry messages from a window of at most 600 leaves exactly the 600 most recent readings, in arrival order |
| LiveStream.InitialIsConsistent | src/DashboardGreenBeans.tsx:66-72 | the mount state satisfies both invariants |
| Alarms.InRangeIffNoAlarm | src/DashboardGreenBeans.tsx:258 | for finite values, no alarm exactly when min <= MC <= max (inclusive bounds, both directions) |
| Alarms.NaNNeverAlarms | src/DashboardGreenBeans.tsx:258 | a NaN moisture never alarms, whatever the thresholds |
| Alarms.McWarn | src/DashboardGreenBeans.tsx:253 | the live status is on exactly when a current reading exists and is out of range by the evaluator's test |
| Alarms.Raise | src/DashboardGreenBeans.tsx:261-265 | the record carries the reading's time and value and the thresholds; its level is LOW exactly when MC < min; when the value is out of range and not below min, the level is HIGH and the value is above max |
| Alarms.Evaluate | src/DashboardGreenBeans.tsx:256-270 | with no alarm status the log is returned untouched (nothing removed on return to range); otherwise the new record is first, followed by the first 49 old records, at most 50 in all |
| Alarms.DefaultThresholdBoundaries | src/DashboardGreenBeans.tsx:47-48 | with the default thresholds 10 and 12.5, MC 10 and 12.5 raise nothing, 9.99 raises LOW, 12.51 raises HIGH |
| Alarms.Raised | src/DashboardGreenBeans.tsx:259-268 | every record a run of checks raises is the record of some check that saw an out-of-range reading, every such check's record is among them, and a run with no such check raises nothing |
| Alarms.EvaluateIsNewestFirst | src/DashboardGreenBeans.tsx:259-268 | one check puts what it raises ahead of the log and keeps the first 50 |
| Alarms.EvaluateAllIsNewestFirst | src/DashboardGreenBeans.tsx:259-268 | any run of checks leaves the 50 newest records, newest first, ahead of older ones; the log never exceeds 50 |
| MockStream.ClampMC | src/DashboardGreenBeans.tsx:157-160 | every non-NaN value is clamped into [8, 14]; values already there are kept; values below or above go to the nearer bound; NaN stays NaN |
| MockStream.ClampIdempotent | src/DashboardGreenBeans.tsx:179-182 | clamping twice equals clamping once |
| MockStream.ClampMonotone | src/DashboardGreenBeans.tsx:179-182 | the clamp preserves the order of its inputs |

## Left out

- Broker connection, subscription, reconnection and teardown (lines 74-83, 132-134): a third-party client over the network. Only the per-message handler is modelled.
- Browser storage (lines 70-72, 94): the cache is one `lastMc` value, NaN when unknown. `Step` and `Run` assume the storage write on line 94 succeeds. The path where it throws is the separate `OnPredictionStorageFails`, and no run of messages includes it. The stored copy is written together with it and is not modelled separately. Converting the stored string back to a number is not modelled either: `Initial` takes the stored value already converted.
- `JSON.parse` and `Number(...)` coercion: payload fields arrive already converted to numbers (NaN when missing or a string that is not a number). A message whose parsing throws (`payload == None`) leaves the state unchanged. The `console.error` call is not modelled.
- `Date.now()`, `fmtTime` and locale formatting: the clock is the `now` parameter.
- The alarm message string (line 264) is not formed. The record keeps the value and thresholds the message would contain.
- `Number(...)` turns `null`, `""`, `false` and `[]` into 0 and `true` into 1, so such a `mc_pred` is a finite prediction. The model admits any number as a payload field, and `LiveStream.ZeroPredictionIsCachedAndAlarms` shows the 0 case, but the conversion of JSON values to numbers is not modelled.
- The simulated-stream hook (lines 141-200), which the dashboard never calls, apart from its clamp. Random numbers, sine waves and `toFixed` rounding are floating point and random. This also leaves out the 61-reading seed history and the tick's use of a stale `latest` (line 174).
- Floating-point arithmetic: finite numbers are modelled as reals, and signed zero is not distinguished.
- Object identity of the current reading: line 98 builds a new object on every prediction, and the alarm effect (dependency list on line 270) re-runs whenever that identity changes. So every prediction, repeated or not, fires the alarm effect again. The model compares readings as values and does not decide when the effect fires. `LiveStream.RepeatedPredictionAlarmsTwice` shows the effect of one such extra firing.
- React state and effect scheduling, and all rendering. `Alarms.Check` takes one firing of the effect as given, and the model does not decide when React fires it.
- The UI components under `src/components/ui/` and `tailwind.config.js`: presentation only.

## Findings

| source | as written | input that shows it | evidently intended | confidence | as-written member | corrected member |
|---|---|---|---|---|---|---|
| src/DashboardGreenBeans.tsx:123 | `[...prev.slice(-600), point]` keeps 600 old readings plus the new one, so the window holds 601 | a window of 600 readings, then one telemetry message | a window of at most 600 readings, the oldest evicted | medium; not executed | Window.AppendAsWrittenExceedsCapacity | Window.PushAllKeepsMostRecent |
| src/DashboardGreenBeans.tsx:91-106 | only the cache write is guarded by `Number.isFinite`; a missing prediction, or one that is a non-numeric string, is still written as NaN into the current reading and the window's last entry, which silences the alarm status | a message `{}` on the prediction topic, so `mc_pred` is missing and `Number(undefined)` is NaN | non-finite predictions ignored; every moisture value stays finite | medium; not executed | LiveStream.NonFinitePredictionSilencesAlarm | LiveStream.StepCorrectedPreservesInvariant |

=== FILE: alarms.dfy ===
/**
 * The alarm evaluator: whenever the current reading or a threshold changes,
 * an out-of-range moisture value prepends a LOW/HIGH record to a log that is
 * kept to the 50 most recent records. `McWarn` is the live status the page
 * shows next to it, computed from the same comparison.
 */
module Alarms {
  import opened Wrappers
  import opened JsNumber
  import opened JsArray
  import opened Readings

  /** The initial thresholds `MC_IDEAL_MIN` and `MC_IDEAL_MAX`. */
  const DefaultMin: Num := Finite(10.0)
  const DefaultMax: Num := Finite(12.5)

  /** The argument of `.slice(0, 50)`. */
  const LogCapacity: nat := 50

  datatype Level = LOW | HIGH

  /** An alarm record. The page's message text is formed from `mc`, `mcMin`
      and `mcMax`; the record keeps those values rather than the string. */
  datatype AlarmRecord = AlarmRecord(ts: int, level: Level, mc: Num, mcMin: Num, mcMax: Num)

  /** `MC < mcMin || MC > mcMax`: true only for a value strictly outside the
      inclusive range, and never for NaN. */
  predicate OutOfRange(mc: Num, mcMin: Num, mcMax: Num) {
    Lt(mc, mcMin) || Gt(mc, mcMax)
  }

  /** With finite values, the bounds are inclusive: no alarm exactly at either
      bound, and an alarm for any value strictly outside. */
  lemma InRangeIffNoAlarm(mc: real, mcMin: real, mcMax: real)
    ensures !OutOfRange(Finite(mc), Finite(mcMin), Finite(mcMax)) <==> mcMin <= mc <= mcMax
  {
  }

  /** A NaN moisture value never alarms, whatever the thresholds. */
  lemma NaNNeverAlarms(mcMin: Num, mcMax: Num)
    ensures !OutOfRange(NaN, mcMin, mcMax)
  {
  }

  /** `mcWarn`: false without a current reading, else the same out-of-range
      test as the evaluator. */
  function McWarn(latest: Option<Reading>, mcMin: Num, mcMax: Num): (warn: bool)
    ensures warn <==> latest.Some? && OutOfRange(latest.value.MC, mcMin, mcMax)
  {
    match latest
    case None => false
    case Some(x) => Lt(x.MC, mcMin) || Gt(x.MC, mcMax)
  }

  /** The record raised for reading `x`: LOW exactly when the value is below
      the minimum, HIGH otherwise. */
  function Raise(x: Reading, mcMin: Num, mcMax: Num): (a: AlarmRecord)
    ensures a.ts == x.ts && a.mc == x.MC && a.mcMin == mcMin && a.mcMax == mcMax
    ensures a.level == LOW <==> Lt(x.MC, mcMin)
    ensures OutOfRange(x.MC, mcMin, mcMax) && !Lt(x.MC, mcMin) ==> a.level == HIGH && Gt(x.MC, mcMax)
  {
    AlarmRecord(x.ts, if Lt(x.MC, mcMin) then LOW else HIGH, x.MC, mcMin, mcMax)
  }

  /** One run of the alarm effect. Nothing happens without a reading or with
      an in-range one (no record is ever removed); an out-of-range reading
      puts its record first and keeps at most 50 records. */
  function Evaluate(log: seq<AlarmRecord>, latest: Option<Reading>, mcMin: Num, mcMax: Num): (r: seq<AlarmRecord>)
    ensures !McWarn(latest, mcMin, mcMax) ==> r == log
    ensures McWarn(latest, mcMin, mcMax) ==>
      && 0 < |r| <= LogCapacity
      && r[0] == Raise(latest.value, mcMin, mcMax)
      && r[1..] == First(log, LogCapacity - 1)
  {
    match latest
    case None => log
    case Some(x) =>
      if Lt(x.MC, mcMin) || Gt(x.MC, mcMax) then
        SliceFromZeroIsFirst([Raise(x, mcMin, mcMax)] + log, LogCapacity);
        Slice([Raise(x, mcMin, mcMax)] + log, 0, LogCapacity)
      else log
  }

  /** The threshold examples of the dashboard's defaults: 10 and 12.5 do not
      alarm, 9.99 raises LOW and 12.51 raises HIGH. */
  lemma DefaultThresholdBoundaries(x: Reading)
    ensures x.MC == Finite(10.0) || x.MC == Finite(12.5) ==>
      Evaluate([], Some(x), DefaultMin, DefaultMax) == []
    ensures x.MC == Finite(9.99) ==>
      Evaluate([], Some(x), DefaultMin, DefaultMax) == [AlarmRecord(x.ts, LOW, x.MC, DefaultMin, DefaultMax)]
    ensures x.MC == Finite(12.51) ==>
      Evaluate([], Some(x), DefaultMin, DefaultMax) == [AlarmRecord(x.ts, HIGH, x.MC, DefaultMin, DefaultMax)]
  {
  }

  /** One firing of the effect: the reading and thresholds it saw. */
  datatype Check = Check(latest: Option<Reading>, mcMin: Num, mcMax: Num)

  /** The check raised an alarm: it saw a current reading out of range. */
  predicate Warned(c: Check) {
    McWarn(c.latest, c.mcMin, c.mcMax)
  }

  /** The records a run of checks raises, newest first: every record is the
      one raised by some check that saw an out-of-range reading, and every
      such check's record is there. */
  function Raised(cs: seq<Check>): (r: seq<AlarmRecord>)
    ensures forall j :: 0 <= j < |r| ==>
      exists i :: 0 <= i < |cs| && Warned(cs[i]) && r[j] == Raise(cs[i].latest.value, cs[i].mcMin, cs[i].mcMax)
    ensures (forall i :: 0 <= i < |cs| ==> !Warned(cs[i])) ==> r == []
    ensures forall i :: 0 <= i < |cs| && Warned(cs[i]) ==> Raise(cs[i].latest.value, cs[i].mcMin, cs[i].mcMax) in r
    decreases |cs|
  {
    if |cs| == 0 then []
    else
      var c := cs[0];
      Raised(cs[1..]) + (if McWarn(c.latest, c.mcMin, c.mcMax) then [Raise(c.latest.value, c.mcMin, c.mcMax)] else [])
  }

  /** The log after a run of checks, the checks taken oldest first; the
      log itself stays newest first. */
  function EvaluateAll(log: seq<AlarmRecord>, cs: seq<Check>): seq<AlarmRecord>
    decreases |cs|
  {
    if |cs| == 0 then log
    else EvaluateAll(Evaluate(log, cs[0].latest, cs[0].mcMin, cs[0].mcMax), cs[1..])
  }

  /** One check prepends what it raises and keeps the 50 most recent. */
  lemma EvaluateIsNewestFirst(log: seq<AlarmRecord>, c: Check)
    requires |log| <= LogCapacity
    ensures Evaluate(log, c.latest, c.mcMin, c.mcMax) == First(Raised([c]) + log, LogCapacity)
  {
    assert [c][1..] == [];
    if McWarn(c.latest, c.mcMin, c.mcMax) {
      var a := Raise(c.latest.value, c.mcMin, c.mcMax);
      var r := Evaluate(log, c.latest, c.mcMin, c.mcMax);
      assert Raised([c]) == [a];
      assert r == [a] + r[1..];
    }
  }

  /** The first check's record goes behind those of the later checks. */
  lemma RaisedSplit(cs: seq<Check>)
    requires |cs| > 0
    ensures Raised(cs) == Raised(cs[1..]) + Raised([cs[0]])
  {
    assert [cs[0]][1..] == [];
  }

  /** Starting from a log of at most 50 records, any run of checks leaves
      the 50 most recent alarms, newest first, ahead of the older records. */
  lemma {:induction false} EvaluateAllIsNewestFirst(log: seq<AlarmRecord>, cs: seq<Check>)
    requires |log| <= LogCapacity
    ensures EvaluateAll(log, cs) == First(Raised(cs) + log, LogCapacity)
    ensures |EvaluateAll(log, cs)| <= LogCapacity
    decreases |cs|
  {
    if |cs| > 0 {
      var c := cs[0];
      var rest := cs[1..];
      var log' := Evaluate(log, c.latest, c.mcMin, c.mcMax);
      assert EvaluateAll(log, cs) == EvaluateAll(log', rest);
      EvaluateIsNewestFirst(log, c);
      EvaluateAllIsNewestFirst(log', rest);
      FirstOfPrepend(Raised(rest), Raised([c]), log, LogCapacity);
      RaisedSplit(cs);
    }
  }
}

=== FILE: js_array.dfy ===
/**
 * `Array.prototype.slice` with JavaScript's relative indices, and the two
 * reference notions the dashboard's windows are measured against: the `k`
 * most recent entries of a sequence (`Last`) and its first `k` (`First`).
 */
module JsArray {

  /** How `slice` resolves an index argument against a length `n`:
      a negative index counts from the end, and both are clamped to [0, n]. */
  function RelIndex(k: int, n: nat): (i: nat)
    ensures i <= n
    ensures 0 <= k ==> i == (if k < n then k else n)
  {
    if k < 0 then (if n + k < 0 then 0 else n + k)
    else if k < n then k else n
  }

  /** `a.slice(start, end)` */
  function Slice<T>(a: seq<T>, start: int, end: int): (r: seq<T>)
    ensures |r| <= |a|
  {
    var lo := RelIndex(start, |a|);
    var hi := RelIndex(end, |a|);
    if hi <= lo then [] else a[lo..hi]
  }

  /** `a.slice(start)` */
  function SliceFrom<T>(a: seq<T>, start: int): (r: seq<T>)
    ensures |r| <= |a|
  {
    Slice(a, start, |a|)
  }

  /** The `k` most recent (last) entries of `s`, in their original order. */
  function Last<T>(s: seq<T>, k: nat): (r: seq<T>)
    ensures |r| == if k < |s| then k else |s|
  {
    if k < |s| then s[|s| - k..] else s
  }

  /** `Last` keeps a suffix: its entries are the tail of `s`, in order. */
  lemma LastIndex<T>(s: seq<T>, k: nat)
    ensures forall i :: 0 <= i < |Last(s, k)| ==> Last(s, k)[i] == s[|s| - |Last(s, k)| + i]
  {
  }

  /** The first `k` entries of `s`. */
  function First<T>(s: seq<T>, k: nat): (r: seq<T>)
    ensures |r| == if k < |s| then k else |s|
  {
    if k < |s| then s[..k] else s
  }

  /** `a.slice(-k)` keeps exactly the `k` most recent entries (for `k > 0`;
      `slice(-0)` would keep everything). */
  lemma SliceFromNegativeIsLast<T>(a: seq<T>, k: nat)
    requires k > 0
    ensures SliceFrom(a, -(k as int)) == Last(a, k)
  {
  }

  /** `a.slice(0, k)` keeps the first `k` entries. */
  lemma SliceFromZeroIsFirst<T>(a: seq<T>, k: nat)
    ensures Slice(a, 0, k) == First(a, k)
  {
  }

  /** `a.slice(0, -1)` drops exactly the last entry of a non-empty array. */
  lemma SliceDropsLast<T>(a: seq<T>)
    requires |a| > 0
    ensures Slice(a, 0, -1) == a[..|a| - 1]
  {
  }

  /** Keeping `k` entries and then appending one is keeping `k + 1` of the
      extended sequence. */
  lemma LastSnoc<T>(s: seq<T>, x: T, k: nat)
    ensures Last(s, k) + [x] == Last(s + [x], k + 1)
  {
    if k < |s| {
      assert Last(s + [x], k + 1) == (s + [x])[|s| - k..];
      assert (s + [x])[|s| - k..] == s[|s| - k..] + [x];
    } else {
      assert Last(s + [x], k + 1) == s + [x];
    }
  }

  /** Truncating early does not change the outcome of truncating later. */
  lemma LastOfLast<T>(x: seq<T>, y: seq<T>, k: nat)
    ensures Last(Last(x, k) + y, k) == Last(x + y, k)
  {
    var lx := Last(x, k);
    var l := Last(lx + y, k);
    var r := Last(x + y, k);
    LastIndex(x, k);
    LastIndex(lx + y, k);
    LastIndex(x + y, k);
    assert |l| == |r|;
    forall i | 0 <= i < |l|
      ensures l[i] == r[i]
    {
      var j := |lx + y| - |l| + i;
      var j' := |x + y| - |r| + i;
      if j < |lx| {
        assert (lx + y)[j] == lx[j];
        assert j' < |x|;
        assert (x + y)[j'] == x[j'];
      } else {
        assert (lx + y)[j] == y[j - |lx|];
        assert (x + y)[j'] == y[j' - |x|];
      }
    }
  }

  /** The same for keeping the first `k` after prepending. */
  lemma FirstOfFirst<T>(x: seq<T>, y: seq<T>, k: nat)
    ensures First(x + First(y, k), k) == First(x + y, k)
  {
    var l := First(x + First(y, k), k);
    var r := First(x + y, k);
    assert |l| == |r|;
    assert forall i :: 0 <= i < |l| ==> l[i] == (x + First(y, k))[i];
    assert forall i :: 0 <= i < |r| ==> r[i] == (x + y)[i];
    forall i | 0 <= i < |l|
      ensures l[i] == r[i]
    {
      if i < |x| {
        assert (x + First(y, k))[i] == x[i];
      } else {
        assert (x + First(y, k))[i] == First(y, k)[i - |x|];
      }
    }
  }

  /** Prepending `a` to the first `k` of `b + c`, then keeping `k`, keeps the
      first `k` of `a + b + c`. */
  lemma FirstOfPrepend<T>(a: seq<T>, b: seq<T>, c: seq<T>, k: nat)
    ensures First(a + First(b + c, k), k) == First(a + b + c, k)
  {
    FirstOfFirst(a, b + c, k);
    assert a + (b + c) == a + b + c;
  }
}

=== FILE: js_number.dfy ===
/**
 * JavaScript `number` values, as far as the dashboard's state transitions
 * observe them: finite values, the two infinities and NaN. Comparisons
 * follow the language: every relational comparison with NaN is false.
 * Signed zero is not distinguished.
 */
module JsNumber {

  datatype Num = Finite(v: real) | PosInf | NegInf | NaN

  /** `Number.isFinite(x)` */
  predicate IsFinite(x: Num) {
    x.Finite?
  }

  /** `a < b` */
  predicate Lt(a: Num, b: Num) {
    match a
    case NaN => false
    case PosInf => false
    case NegInf => b.Finite? || b.PosInf?
    case Finite(x) => (b.Finite? && x < b.v) || b.PosInf?
  }

  /** `a > b`, which JavaScript evaluates as `b < a` */
  predicate Gt(a: Num, b: Num) {
    Lt(b, a)
  }

  /** `<` is a strict total order on the values that are not NaN. */
  lemma LtTrichotomy(a: Num, b: Num)
    requires !a.NaN? && !b.NaN?
    ensures Lt(a, b) || a == b || Lt(b, a)
    ensures !(Lt(a, b) && Lt(b, a))
    ensures !Lt(a, a)
  {
  }

  lemma LtTransitive(a: Num, b: Num, c: Num)
    requires Lt(a, b) && Lt(b, c)
    ensures Lt(a, c)
  {
  }

  /** No comparison with NaN on either side holds. */
  lemma NaNIsUnordered(x: Num)
    ensures !Lt(NaN, x) && !Lt(x, NaN) && !Gt(NaN, x) && !Gt(x, NaN)
  {
  }

  /** `Math.min(a, b)`: NaN when either argument is NaN, else the smaller one. */
  function Min(a: Num, b: Num): (r: Num)
    ensures r.NaN? <==> (a.NaN? || b.NaN?)
    ensures !r.NaN? ==> (r == a || r == b) && !Lt(a, r) && !Lt(b, r)
  {
    if a.NaN? || b.NaN? then NaN else if Lt(b, a) then b else a
  }

  /** `Math.max(a, b)`: NaN when either argument is NaN, else the larger one. */
  function Max(a: Num, b: Num): (r: Num)
    ensures r.NaN? <==> (a.NaN? || b.NaN?)
    ensures !r.NaN? ==> (r == a || r == b) && !Lt(r, a) && !Lt(r, b)
  {
    if a.NaN? || b.NaN? then NaN else if Lt(a, b) then b else a
  }
}

=== FILE: live_stream.dfy ===
/**
 * The message handler of the live stream: each inbound message either
 * appends a telemetry reading to the window and makes it current, or merges
 * a moisture prediction into the current reading and the window's last
 * entry. The last-known-moisture cache, the closure's view of the current
 * reading and the clock are explicit inputs.
 */
module LiveStream {
  import opened Wrappers
  import opened JsNumber
  import opened JsArray
  import opened Readings
  import opened Window
  import opened Alarms

  const TopicData: string := "kopi/greenbeans/data"
  const TopicPrediction: string := "kopi/greenbeans/prediction"

  /** A parsed JSON payload, each field already passed through `Number(...)`
      (a missing field, or a string that is not a number, is NaN; `null`,
      `""` and `false` are 0 and `true` is 1). */
  datatype Payload = Payload(tempC: Num, rh: Num, co2: Num, mcPred: Num)

  /** An inbound message; `payload` is None when parsing it throws. */
  datatype Message = Message(topic: string, payload: Option<Payload>)

  /** The handler's state: the window (`points`), the current reading
      (`latest`) and the last-known moisture (`lastMc`, NaN when unknown). */
  datatype Stream = Stream(points: seq<Reading>, latest: Option<Reading>, lastMc: Num)

  /** The state at mount: no readings, and the cache loaded from storage
      (`stored`, already converted to a number), or NaN when nothing is stored. */
  function Initial(stored: Option<Num>): (s: Stream)
    ensures s.points == [] && s.latest.None?
    ensures stored.Some? ==> s.lastMc == stored.value
    ensures stored.None? ==> !IsFinite(s.lastMc)
  {
    Stream([], None, stored.GetOr(NaN))
  }

  /** The moisture given to a new telemetry reading: the cached value when
      it is finite, else the moisture of the reading the handler sees as
      current (even a NaN one), else 0. */
  function FallbackMC(lastMc: Num, seen: Option<Reading>): (mc: Num)
    ensures IsFinite(lastMc) ==> mc == lastMc
    ensures !IsFinite(lastMc) && seen.Some? ==> mc == seen.value.MC
    ensures !IsFinite(lastMc) && seen.None? ==> mc == Finite(0.0)
  {
    if IsFinite(lastMc) then lastMc
    else match seen
      case Some(x) => x.MC
      case None => Finite(0.0)
  }

  /** The handler is registered once at mount, so the current reading it
      sees is always the initial null: the fallback is the finite cache or 0. */
  lemma FallbackAtMount(lastMc: Num)
    ensures IsFinite(FallbackMC(lastMc, None))
    ensures FallbackMC(lastMc, None) == if IsFinite(lastMc) then lastMc else Finite(0.0)
  {
  }

  /** The reading a telemetry message produces. */
  function NewPoint(lastMc: Num, seen: Option<Reading>, p: Payload, now: int): (x: Reading)
    ensures x.ts == now && x.T == p.tempC && x.RH == p.rh && x.CO2 == p.co2
    ensures x.MC == FallbackMC(lastMc, seen)
  {
    Reading(now, p.tempC, p.rh, p.co2, FallbackMC(lastMc, seen))
  }

  /** The telemetry branch: the new reading becomes current and the window's
      last entry, after the 600 most recent old entries; the cache is kept. */
  function OnTelemetry(s: Stream, seen: Option<Reading>, p: Payload, now: int): (r: Stream)
    ensures r.latest.Some? && |r.points| > 0 && r.latest.value == r.points[|r.points| - 1]
    ensures r.latest.value.ts == now && r.latest.value.T == p.tempC
    ensures r.latest.value.RH == p.rh && r.latest.value.CO2 == p.co2
    ensures r.latest.value.MC == FallbackMC(s.lastMc, seen)
    ensures r.points == Last(s.points + [r.latest.value], SliceKeep + 1)
    ensures r.lastMc == s.lastMc
  {
    var x := NewPoint(s.lastMc, seen, p, now);
    Stream(AppendAsWritten(s.points, x), Some(x), s.lastMc)
  }

  /** `prev ? { ...prev, MC: mc } : { ts: now, T: 0, RH: 0, CO2: 0, MC: mc }` */
  function MergeLatest(latest: Option<Reading>, mc: Num, now: int): (x: Reading)
    ensures x.MC == mc
    ensures latest.Some? ==> SameExceptMC(x, latest.value)
    ensures latest.None? ==> x.ts == now && x.T == Finite(0.0) && x.RH == Finite(0.0) && x.CO2 == Finite(0.0)
  {
    match latest
    case Some(prev) => WithMC(prev, mc)
    case None => Reading(now, Finite(0.0), Finite(0.0), Finite(0.0), mc)
  }

  /** The prediction branch as written: the cache takes `mc` only when it is
      finite, but the current reading and the window's last entry take `mc`
      whether or not it is finite; no window entry is added. */
  function OnPrediction(s: Stream, mc: Num, now: int): (r: Stream)
    ensures IsFinite(mc) ==> r.lastMc == mc
    ensures !IsFinite(mc) ==> r.lastMc == s.lastMc
    ensures r.latest.Some? && r.latest.value.MC == mc
    ensures s.latest.Some? ==> SameExceptMC(r.latest.value, s.latest.value)
    ensures s.latest.None? ==> r.latest.value == Reading(now, Finite(0.0), Finite(0.0), Finite(0.0), mc)
    ensures |r.points| == |s.points|
    ensures forall i :: 0 <= i < |s.points| - 1 ==> r.points[i] == s.points[i]
    ensures |s.points| > 0 ==>
      SameExceptMC(r.points[|s.points| - 1], s.points[|s.points| - 1]) && r.points[|s.points| - 1].MC == mc
  {
    var lastMc := if IsFinite(mc) then mc else s.lastMc;
    Stream(AmendLast(s.points, mc), Some(MergeLatest(s.latest, mc, now)), lastMc)
  }

  /** The same prediction applied twice leaves the same handler state as
      applying it once, and adds no window entry, whatever the clock says the
      second time. */
  lemma OnPredictionIdempotent(s: Stream, mc: Num, now: int, now': int)
    ensures OnPrediction(OnPrediction(s, mc, now), mc, now') == OnPrediction(s, mc, now)
  {
    AmendLastIdempotent(s.points, mc);
  }

  /** The prediction branch when writing the cache to browser storage
      throws: the in-memory cache has already taken the finite prediction,
      and the handler's `catch` skips the updates of the current reading and
      the window. A non-finite prediction never reaches the write. */
  function OnPredictionStorageFails(s: Stream, mc: Num, now: int): (r: Stream)
    ensures IsFinite(mc) ==> r.lastMc == mc && r.points == s.points && r.latest == s.latest
    ensures !IsFinite(mc) ==> r == OnPrediction(s, mc, now)
  {
    if IsFinite(mc) then s.(lastMc := mc) else OnPrediction(s, mc, now)
  }

  /** The example merge: current reading `{ts: 100, T: 26, RH: 65, CO2: 560, MC: 0}`,
      also the window's last entry, and a prediction of 11.3. */
  lemma MergeExample(older: seq<Reading>)
    ensures
      var x := Reading(100, Finite(26.0), Finite(65.0), Finite(560.0), Finite(0.0));
      var x' := Reading(100, Finite(26.0), Finite(65.0), Finite(560.0), Finite(11.3));
      var r := OnPrediction(Stream(older + [x], Some(x), Finite(0.0)), Finite(11.3), 5000);
      r.latest == Some(x') && r.points == older + [x'] && r.lastMc == Finite(11.3)
  {
  }

  /** Dispatch on the topic; a payload that does not parse, or a topic other
      than the two subscribed ones, leaves the state unchanged. */
  function Step(s: Stream, m: Message, seen: Option<Reading>, now: int): (r: Stream)
    ensures m.payload.None? ==> r == s
    ensures m.topic != TopicData && m.topic != TopicPrediction ==> r == s
    ensures m.topic != TopicData ==> |r.points| == |s.points|
    ensures m.topic != TopicPrediction ==> r.lastMc == s.lastMc
  {
    match m.payload
    case None => s
    case Some(p) =>
      if m.topic == TopicPrediction then OnPrediction(s, p.mcPred, now)
      else if m.topic == TopicData then OnTelemetry(s, seen, p, now)
      else s
  }

  /** The window holds at most `cap` entries, and whenever it is non-empty
      the current reading is its last entry. */
  predicate Consistent(s: Stream, cap: nat) {
    |s.points| <= cap && (|s.points| > 0 ==> s.latest == Some(s.points[|s.points| - 1]))
  }

  lemma StepPreservesConsistent(s: Stream, m: Message, seen: Option<Reading>, now: int)
    requires Consistent(s, SliceKeep + 1)
    ensures Consistent(Step(s, m, seen, now), SliceKeep + 1)
  {
  }

  /** A message together with the clock reading when it is handled. */
  datatype Delivery = Delivery(msg: Message, now: int)

  /** The handler over a run of messages, as registered at mount: the
      current reading it sees is the initial null throughout. */
  function Run(s: Stream, ds: seq<Delivery>): Stream
    decreases |ds|
  {
    if |ds| == 0 then s else Run(Step(s, ds[0].msg, None, ds[0].now), ds[1..])
  }

  /** Over any run, the window never exceeds 601 entries and the current
      reading stays its last entry. */
  lemma {:induction false} RunPreservesConsistent(s: Stream, ds: seq<Delivery>)
    requires Consistent(s, SliceKeep + 1)
    ensures Consistent(Run(s, ds), SliceKeep + 1)
    decreases |ds|
  {
    if |ds| > 0 {
      StepPreservesConsistent(s, ds[0].msg, None, ds[0].now);
      RunPreservesConsistent(Step(s, ds[0].msg, None, ds[0].now), ds[1..]);
    }
  }

  /** The delivery is a telemetry message whose payload parsed. */
  predicate IsTelemetry(d: Delivery) {
    d.msg.topic == TopicData && d.msg.payload.Some?
  }

  /** The parsed payload of a telemetry delivery. */
  function PayloadOf(d: Delivery): (p: Payload)
    requires IsTelemetry(d)
    ensures d.msg.payload == Some(p)
  {
    d.msg.payload.value
  }

  /** The readings a run of telemetry deliveries produces, in arrival order,
      as the handler registered at mount builds them. */
  function PointsOf(lastMc: Num, ds: seq<Delivery>): (ps: seq<Reading>)
    requires forall i :: 0 <= i < |ds| ==> IsTelemetry(ds[i])
    ensures |ps| == |ds|
    ensures forall i :: 0 <= i < |ds| ==> ps[i] == NewPoint(lastMc, None, PayloadOf(ds[i]), ds[i].now)
    decreases |ds|
  {
    if |ds| == 0 then []
    else [NewPoint(lastMc, None, PayloadOf(ds[0]), ds[0].now)] + PointsOf(lastMc, ds[1..])
  }

  /** A run of telemetry messages is a run of window appends of the readings
      they produce, and leaves the cache alone. */
  lemma {:induction false} RunTelemetryIsAppendAll(s: Stream, ds: seq<Delivery>)
    requires forall i :: 0 <= i < |ds| ==> IsTelemetry(ds[i])
    ensures Run(s, ds).points == AppendAllAsWritten(s.points, PointsOf(s.lastMc, ds))
    ensures Run(s, ds).lastMc == s.lastMc
    ensures |ds| > 0 ==> Run(s, ds).latest == Some(PointsOf(s.lastMc, ds)[|ds| - 1])
    decreases |ds|
  {
    if |ds| > 0 {
      var s' := Step(s, ds[0].msg, None, ds[0].now);
      var ps := PointsOf(s.lastMc, ds);
      assert s' == OnTelemetry(s, None, PayloadOf(ds[0]), ds[0].now);
      assert ps[0] == NewPoint(s.lastMc, None, PayloadOf(ds[0]), ds[0].now);
      assert ps[1..] == PointsOf(s.lastMc, ds[1..]);
      RunTelemetryIsAppendAll(s', ds[1..]);
      if |ds| > 1 {
        assert ps[|ds| - 1] == PointsOf(s.lastMc, ds[1..])[|ds| - 2];
      }
    }
  }

  /** After any non-empty run of telemetry messages, the window is exactly
      the 601 most recent readings of the old window and the new ones, in
      arrival order, and the last of them is current. */
  lemma RunTelemetryKeepsMostRecent(s: Stream, ds: seq<Delivery>)
    requires |ds| > 0
    requires forall i :: 0 <= i < |ds| ==> IsTelemetry(ds[i])
    ensures Run(s, ds).points == Last(s.points + PointsOf(s.lastMc, ds), SliceKeep + 1)
    ensures Run(s, ds).latest == Some(PointsOf(s.lastMc, ds)[|ds| - 1])
    ensures Run(s, ds).lastMc == s.lastMc
  {
    RunTelemetryIsAppendAll(s, ds);
    AppendAllAsWrittenKeepsMostRecent(s.points, PointsOf(s.lastMc, ds));
  }

  /** In a fresh session with nothing stored, telemetry that arrives before
      any prediction gets moisture 0. */
  lemma FreshSessionTelemetryHasZeroMC(p: Payload, now: int)
    ensures Step(Initial(None), Message(TopicData, Some(p)), None, now).latest == Some(Reading(now, p.tempC, p.rh, p.co2, Finite(0.0)))
  {
  }

  /** A NaN prediction (missing, or a string that is not a number) still
      reaches the current reading, whose NaN moisture then silences the alarm
      status whatever the thresholds, even when the reading before it was out
      of range. */
  lemma NonFinitePredictionSilencesAlarm(s: Stream, now: int, mcMin: Num, mcMax: Num)
    ensures
      var r := Step(s, Message(TopicPrediction, Some(Payload(NaN, NaN, NaN, NaN))), None, now);
      r.latest.Some? && r.latest.value.MC == NaN && !McWarn(r.latest, mcMin, mcMax)
      && r.lastMc == s.lastMc
  {
  }

  /** A prediction that coerces to 0 (`{"mc_pred": null}`, say) is finite:
      it replaces the cache, becomes the moisture of the next telemetry
      reading, and under the default thresholds raises LOW. */
  lemma ZeroPredictionIsCachedAndAlarms(s: Stream, p: Payload, now: int)
    requires p.mcPred == Finite(0.0)
    ensures
      var r := Step(s, Message(TopicPrediction, Some(p)), None, now);
      && r.lastMc == Finite(0.0)
      && McWarn(r.latest, DefaultMin, DefaultMax)
      && Raise(r.latest.value, DefaultMin, DefaultMax).level == LOW
      && FallbackMC(r.lastMc, None) == Finite(0.0)
  {
  }

  /** The handler state repeats, but the alarm effect fires on every new
      current reading: an out-of-range prediction delivered twice logs two
      records. */
  lemma RepeatedPredictionAlarmsTwice(s: Stream, mc: Num, now: int, now': int, mcMin: Num, mcMax: Num)
    requires OutOfRange(mc, mcMin, mcMax)
    ensures
      var s1 := OnPrediction(s, mc, now);
      var s2 := OnPrediction(s1, mc, now');
      s2 == s1 && |EvaluateAll([], [Check(s1.latest, mcMin, mcMax), Check(s2.latest, mcMin, mcMax)])| == 2
  {
    var s1 := OnPrediction(s, mc, now);
    OnPredictionIdempotent(s, mc, now, now');
    var cs := [Check(s1.latest, mcMin, mcMax), Check(s1.latest, mcMin, mcMax)];
    EvaluateAllIsNewestFirst([], cs);
    assert cs[1..] == [cs[1]];
    assert cs[1..][1..] == [];
  }

  /** The prediction branch with the non-finite case ignored, as the guard
      on the cache evidently intends. */
  function OnPredictionCorrected(s: Stream, mc: Num, now: int): (r: Stream)
    ensures !IsFinite(mc) ==> r == s
    ensures IsFinite(mc) ==> r == OnPrediction(s, mc, now)
  {
    if IsFinite(mc) then OnPrediction(s, mc, now) else s
  }

  /** The telemetry branch with the window kept to `Capacity` entries. */
  function OnTelemetryCorrected(s: Stream, seen: Option<Reading>, p: Payload, now: int): (r: Stream)
    ensures r.latest.Some? && |r.points| > 0 && r.latest.value == r.points[|r.points| - 1]
    ensures r.latest.value == NewPoint(s.lastMc, seen, p, now)
    ensures r.points == Last(s.points + [r.latest.value], Capacity)
    ensures r.lastMc == s.lastMc
  {
    var x := NewPoint(s.lastMc, seen, p, now);
    Stream(Push(s.points, x), Some(x), s.lastMc)
  }

  function StepCorrected(s: Stream, m: Message, seen: Option<Reading>, now: int): (r: Stream)
    ensures m.payload.None? ==> r == s
    ensures m.topic != TopicData && m.topic != TopicPrediction ==> r == s
  {
    match m.payload
    case None => s
    case Some(p) =>
      if m.topic == TopicPrediction then OnPredictionCorrected(s, p.mcPred, now)
      else if m.topic == TopicData then OnTelemetryCorrected(s, seen, p, now)
      else s
  }

  /** Every reading in `w` has a finite moisture value. */
  predicate AllFiniteMC(w: seq<Reading>) {
    forall i :: 0 <= i < |w| ==> IsFinite(w[i].MC)
  }

  /** Every moisture value in the state is finite. */
  predicate FiniteMoisture(s: Stream) {
    AllFiniteMC(s.points) && (s.latest.Some? ==> IsFinite(s.latest.value.MC))
  }

  /** Keeping the most recent entries keeps finite moisture values finite. */
  lemma LastKeepsFiniteMC(w: seq<Reading>, k: nat)
    requires AllFiniteMC(w)
    ensures AllFiniteMC(Last(w, k))
  {
    LastIndex(w, k);
    var l := Last(w, k);
    forall i | 0 <= i < |l|
      ensures IsFinite(l[i].MC)
    {
      assert l[i] == w[|w| - |l| + i];
    }
  }

  /** Corrected telemetry keeps both invariants. */
  lemma OnTelemetryCorrectedPreservesInvariant(s: Stream, seen: Option<Reading>, p: Payload, now: int)
    requires Consistent(s, Capacity) && FiniteMoisture(s)
    requires seen.Some? ==> IsFinite(seen.value.MC)
    ensures Consistent(OnTelemetryCorrected(s, seen, p, now), Capacity)
    ensures FiniteMoisture(OnTelemetryCorrected(s, seen, p, now))
  {
    var x := NewPoint(s.lastMc, seen, p, now);
    var w := s.points + [x];
    assert AllFiniteMC(w) by {
      assert forall i :: 0 <= i < |s.points| ==> w[i] == s.points[i];
    }
    LastKeepsFiniteMC(w, Capacity);
  }

  /** Corrected predictions keep both invariants. */
  lemma OnPredictionCorrectedPreservesInvariant(s: Stream, mc: Num, now: int)
    requires Consistent(s, Capacity) && FiniteMoisture(s)
    ensures Consistent(OnPredictionCorrected(s, mc, now), Capacity)
    ensures FiniteMoisture(OnPredictionCorrected(s, mc, now))
  {
  }

  /** The corrected handler keeps the window to `Capacity` entries, keeps the
      current reading as its last entry, and never lets a non-finite moisture
      value in. */
  lemma StepCorrectedPreservesInvariant(s: Stream, m: Message, seen: Option<Reading>, now: int)
    requires Consistent(s, Capacity) && FiniteMoisture(s)
    requires seen.Some? ==> IsFinite(seen.value.MC)
    ensures Consistent(StepCorrected(s, m, seen, now), Capacity)
    ensures FiniteMoisture(StepCorrected(s, m, seen, now))
  {
    match m.payload
    case None =>
    case Some(p) =>
      if m.topic == TopicPrediction {
        OnPredictionCorrectedPreservesInvariant(s, p.mcPred, now);
      } else if m.topic == TopicData {
        OnTelemetryCorrectedPreservesInvariant(s, seen, p, now);
      }
  }

  function RunCorrected(s: Stream, ds: seq<Delivery>): Stream
    decreases |ds|
  {
    if |ds| == 0 then s else RunCorrected(StepCorrected(s, ds[0].msg, None, ds[0].now), ds[1..])
  }

  /** From the mounted state, any run of the corrected handler keeps the window
      within `Capacity`, the current reading as its last entry, and every
      moisture value finite. */
  lemma {:induction false} RunCorrectedPreservesInvariant(s: Stream, ds: seq<Delivery>)
    requires Consistent(s, Capacity) && FiniteMoisture(s)
    ensures Consistent(RunCorrected(s, ds), Capacity) && FiniteMoisture(RunCorrected(s, ds))
    decreases |ds|
  {
    if |ds| > 0 {
      StepCorrectedPreservesInvariant(s, ds[0].msg, None, ds[0].now);
      RunCorrectedPreservesInvariant(StepCorrected(s, ds[0].msg, None, ds[0].now), ds[1..]);
    }
  }

  /** The mounted state meets both invariants. */
  lemma InitialIsConsistent(stored: Option<Num>)
    ensures Consistent(Initial(stored), Capacity) && FiniteMoisture(Initial(stored))
  {
  }

  /** The corrected handler turns a run of telemetry messages into a run of
      `Push`es of the readings they produce, and leaves the cache alone. */
  lemma {:induction false} RunCorrectedTelemetryIsPushAll(s: Stream, ds: seq<Delivery>)
    requires forall i :: 0 <= i < |ds| ==> IsTelemetry(ds[i])
    ensures RunCorrected(s, ds).points == PushAll(s.points, PointsOf(s.lastMc, ds))
    ensures RunCorrected(s, ds).lastMc == s.lastMc
    decreases |ds|
  {
    if |ds| > 0 {
      var s' := StepCorrected(s, ds[0].msg, None, ds[0].now);
      var ps := PointsOf(s.lastMc, ds);
      assert s' == OnTelemetryCorrected(s, None, PayloadOf(ds[0]), ds[0].now);
      assert ps[0] == NewPoint(s.lastMc, None, PayloadOf(ds[0]), ds[0].now);
      assert ps[1..] == PointsOf(s.lastMc, ds[1..]);
      RunCorrectedTelemetryIsPushAll(s', ds[1..]);
    }
  }

  /** With the corrected handler, any run of telemetry messages from a window
      within bounds leaves exactly the `Capacity` most recent readings, in
      arrival order. */
  lemma RunCorrectedTelemetryKeepsMostRecent(s: Stream, ds: seq<Delivery>)
    requires |s.points| <= Capacity
    requires forall i :: 0 <= i < |ds| ==> IsTelemetry(ds[i])
    ensures RunCorrected(s, ds).points == Last(s.points + PointsOf(s.lastMc, ds), Capacity)
    ensures |RunCorrected(s, ds).points| <= Capacity
  {
    RunCorrectedTelemetryIsPushAll(s, ds);
    PushAllKeepsMostRecent(s.points, PointsOf(s.lastMc, ds));
  }
}

=== FILE: mock_stream.dfy ===
/** The simulated stream's moisture clamp, `Math.max(8.0, Math.min(14.0, x))`. */
module MockStream {
  import opened JsNumber

  const MinMC: real := 8.0
  const MaxMC: real := 14.0

  /** Any number but NaN is brought into [8, 14]; a value already there is
      kept; values below and above map to the nearer bound. NaN stays NaN,
      as `Math.min`/`Math.max` propagate it. */
  function ClampMC(x: Num): (r: Num)
    ensures x.NaN? <==> r.NaN?
    ensures !x.NaN? ==> r.Finite? && MinMC <= r.v <= MaxMC
    ensures x.Finite? && MinMC <= x.v <= MaxMC ==> r == x
    ensures Lt(x, Finite(MinMC)) ==> r == Finite(MinMC)
    ensures Gt(x, Finite(MaxMC)) ==> r == Finite(MaxMC)
  {
    Max(Finite(MinMC), Min(Finite(MaxMC), x))
  }

  /** Clamping twice is clamping once. */
  lemma ClampIdempotent(x: Num)
    ensures ClampMC(ClampMC(x)) == ClampMC(x)
  {
  }

  /** The clamp preserves the order of its inputs. */
  lemma ClampMonotone(x: Num, y: Num)
    requires Lt(x, y)
    ensures !Lt(ClampMC(y), ClampMC(x))
  {
  }
}

=== FILE: readings.dfy ===
/** The dashboard's `TelemetryPoint`: one timestamped sensor reading. */
module Readings {
  import opened JsNumber

  /** `ts` is epoch milliseconds; `T` °C, `RH` %, `CO2` ppm, `MC` moisture %. */
  datatype Reading = Reading(ts: int, T: Num, RH: Num, CO2: Num, MC: Num)

  /** The two readings agree on every field except, possibly, `MC`. */
  predicate SameExceptMC(a: Reading, b: Reading) {
    a.ts == b.ts && a.T == b.T && a.RH == b.RH && a.CO2 == b.CO2
  }

  /** `{ ...r, MC: mc }`: a copy of `r` with only its moisture replaced. */
  function WithMC(r: Reading, mc: Num): (r': Reading)
    ensures SameExceptMC(r', r) && r'.MC == mc
  {
    r.(MC := mc)
  }
}

=== FILE: window.dfy ===
/**
 * The rolling window of recent readings that feeds the charts: appending a
 * new reading with eviction of the oldest ones, and the in-place correction
 * of the most recent entry when a moisture prediction arrives.
 */
module Window {
  import opened JsNumber
  import opened JsArray
  import opened Readings

  /** The argument of `prev.slice(-600)` in the append. */
  const SliceKeep: nat := 600

  /** The capacity the window is meant to have. */
  const Capacity: nat := 600

  /** `[...prev.slice(-600), point]`, as the stream handlers write it: the
      600 most recent old entries followed by the new point. The result is
      the 601 most recent readings, one more than `Capacity`. */
  function AppendAsWritten(w: seq<Reading>, p: Reading): (r: seq<Reading>)
    ensures r == Last(w + [p], SliceKeep + 1)
    ensures |r| <= Capacity + 1 && r[|r| - 1] == p
  {
    SliceFromNegativeIsLast(w, SliceKeep);
    LastSnoc(w, p, SliceKeep);
    SliceFrom(w, -(SliceKeep as int)) + [p]
  }

  /** A full window grows past its capacity under the append as written. */
  lemma AppendAsWrittenExceedsCapacity(w: seq<Reading>, p: Reading)
    requires |w| >= Capacity
    ensures |AppendAsWritten(w, p)| == Capacity + 1
  {
  }

  /** The append with the intended capacity: `[...prev, point].slice(-600)`,
      the 600 most recent readings. */
  function Push(w: seq<Reading>, p: Reading): (r: seq<Reading>)
    ensures r == Last(w + [p], Capacity)
    ensures |r| <= Capacity && r[|r| - 1] == p
  {
    SliceFromNegativeIsLast(w + [p], Capacity);
    SliceFrom(w + [p], -(Capacity as int))
  }

  /** Appending a run of readings one message at a time, as written. */
  function AppendAllAsWritten(w: seq<Reading>, ps: seq<Reading>): seq<Reading>
    decreases |ps|
  {
    if |ps| == 0 then w else AppendAllAsWritten(AppendAsWritten(w, ps[0]), ps[1..])
  }

  /** Appending a run of readings one message at a time, with `Push`. */
  function PushAll(w: seq<Reading>, ps: seq<Reading>): seq<Reading>
    decreases |ps|
  {
    if |ps| == 0 then w else PushAll(Push(w, ps[0]), ps[1..])
  }

  /** After any non-empty run of telemetry the window holds exactly the 601
      most recent readings, in arrival order. */
  lemma {:induction false} AppendAllAsWrittenKeepsMostRecent(w: seq<Reading>, ps: seq<Reading>)
    requires |ps| > 0
    ensures AppendAllAsWritten(w, ps) == Last(w + ps, SliceKeep + 1)
    decreases |ps|
  {
    var k := SliceKeep + 1;
    var w' := AppendAsWritten(w, ps[0]);
    assert w' == Last(w + [ps[0]], k);
    if |ps| == 1 {
      assert ps == [ps[0]];
    } else {
      var rest := ps[1..];
      assert AppendAllAsWritten(w, ps) == AppendAllAsWritten(w', rest);
      AppendAllAsWrittenKeepsMostRecent(w', rest);
      LastOfLast(w + [ps[0]], rest, k);
      assert w + [ps[0]] + rest == w + ps;
    }
  }

  /** With `Push`, any non-empty run (or none, from a window within
      `Capacity`) leaves exactly the `Capacity` most recent readings, in
      arrival order. */
  lemma {:induction false} PushAllKeepsMostRecent(w: seq<Reading>, ps: seq<Reading>)
    requires |w| <= Capacity || |ps| > 0
    ensures PushAll(w, ps) == Last(w + ps, Capacity)
    ensures |PushAll(w, ps)| <= Capacity
    decreases |ps|
  {
    if |ps| == 0 {
      assert w + ps == w;
    } else {
      var w' := Push(w, ps[0]);
      if |ps| == 1 {
        assert ps == [ps[0]];
      } else {
        PushAllKeepsMostRecent(w', ps[1..]);
        LastOfLast(w + [ps[0]], ps[1..], Capacity);
        assert w + [ps[0]] + ps[1..] == w + ps;
      }
    }
  }

  /** The prediction branch's window update: an empty window is returned as
      is; otherwise `[...prev.slice(0, -1), { ...last, MC: mc }]`. */
  function AmendLast(w: seq<Reading>, mc: Num): (r: seq<Reading>)
    ensures |w| == 0 ==> r == w
    ensures |r| == |w|
    ensures forall i :: 0 <= i < |w| - 1 ==> r[i] == w[i]
    ensures |w| > 0 ==> SameExceptMC(r[|w| - 1], w[|w| - 1]) && r[|w| - 1].MC == mc
  {
    if |w| == 0 then w
    else
      SliceDropsLast(w);
      Slice(w, 0, -1) + [WithMC(w[|w| - 1], mc)]
  }

  /** Amending with the same prediction twice is amending once. */
  lemma AmendLastIdempotent(w: seq<Reading>, mc: Num)
    ensures AmendLast(AmendLast(w, mc), mc) == AmendLast(w, mc)
  {
  }
}

=== FILE: wrappers.dfy ===
/** The optional value the dashboard writes as `T | null`. */
module Wrappers {

  datatype Option<+T> = None | Some(value: T) {

    /** The value, or `default` when absent (JavaScript's `??`). */
    function GetOr(default: T): T {
      match this
      case Some(v) => v
      case None => default
    }
  }
}
